=== FILE: README.md ===
# Smart alarm clock: a verified model

This project models the core of a MicroPython alarm clock for an ESP32 board,
the script `test/hw3_clock.py`. The clock keeps a list of alarms in memory
and saves the whole list to `alarms.json` after every change. A small web
service lets a phone or browser list, create, toggle and delete alarms, and
start or stop the ringing. A watchdog wakes once a second and starts a ring
task for every enabled alarm set for the current minute. It remembers which
list positions have rung and never rings a remembered position again, so an
unedited list rings each alarm once. The memory holds positions, not alarms:
a create that sorts an earlier alarm in front of one that has rung lets that
alarm ring again in the same minute, and a delete that moves an alarm onto a
rung position keeps it silent until the clock restarts. A ring
task plays "Twinkle, Twinkle, Little Star" on a PWM speaker over and over
until the stop route lowers the ringing flag.

The model has seven modules:

- `Wrappers`: the `Option` type.
- `Json`: decoded JSON values, Python truthiness, and Python's `int()` on
  such values, including the decimal parse of strings.
- `AlarmRecords`: the alarm record, the (y, m, d, h, min) order, what the
  runtime's sort promises after an API create, and removal and toggling by
  position.
- `Routes`: what each alarm route does to the list, as a pure function of
  the current list and the request (`Effect`).
- `Watchdog`: which positions one tick rings, and which a run of ticks rings.
- `Sound`: the note table, the melody, the tone each note drives the
  speaker to, and the endless repetition of the melody.
- `Clock`: the class `AlarmClockState`, which holds the script's module-level
  globals as fields. Its methods are the store operations, the route
  handlers, the note loop, the ring task and the watchdog tick. The route
  handlers `PostAlarms`, `DeleteAlarms`, `Add` and `Del` are proved to change
  the list and file as `PostEffect`, `DeleteEffect`, `AddEffect` and
  `DelEffect` say. `DeleteAlarm` and `ToggleAlarm` follow `RemoveAt` and
  `ToggleAt`, `Tick` rings `Due`, and `PlaySong` and `RingTask` drive the
  speaker through `Tones` and `FreqAfter` over the notes heard. `Save`,
  `AddAlarm`, `ApiReset`, `RingTest`, `RingStop` and `ListAlarms` have no
  pure counterpart; their contracts state the new fields directly.

Saving to `alarms.json` is modelled as a snapshot: the field `persisted`
holds the list as last written. The web request arrives already decoded. A
body is either empty, not JSON, or a decoded value, and the query arguments
are a string map. The cooperative scheduler is modelled by a parameter. The
stop route runs during the sleep of one chosen note (`stopDuring`,
`stopAt`). The ghost field `tones` logs the speaker's setting just after each note
starts: silent at duty 0, a pitch at duty 512, or any other duty with its
frequency.

The POST create sorts the list with the runtime's `sorted`. On MicroPython
that sort is not stable: alarms of the same minute may come out in either
order. The model takes the sort as a parameter, and assumes of it only what
holds on every run: the result is in time order and holds the same alarms
(`SortsByTime`). An insertion sort (`SortByTime`) shows that such a sort
exists.

Some behaviours of the code worth knowing:

- Starting a ring always spawns a new ring task, even when one is already
  ringing (`test/hw3_clock.py:282-287`).
- In a create request each field is read from its short key (`y`, `m`, ...)
  when present, else from its long key (`year`, `month`, ...), else 0
  (`test/hw3_clock.py:234-238`).
- `enabled` stores whatever JSON value the body sent
  (`test/hw3_clock.py:241`).
- The five numeric fields are whatever integers `int()` returns; no range is
  checked, and negative values are kept (`test/hw3_clock.py:234-238`).

## Model

| member | source | states |
|---|---|---|
| Json.ParseIntRoundTrip | test/hw3_clock.py:188-189 | `int()` reads back the decimal text of any integer, with any surrounding whitespace |
| Json.PrintedIsSigned | test/hw3_clock.py:195 | an optional sign followed by the printed digits parses to the same integer |
| Json.IntOfPrinted | test/hw3_clock.py:226 | `int()` on a JSON string holding a printed integer returns that integer |
| Json.ParseIntNeedsDigit | test/hw3_clock.py:234-238 | a string `int()` accepts contains at least one decimal digit |
| Json.DigitsOfNat | test/hw3_clock.py:265 | the digits printed for a natural number denote that number |
| Json.TrimLeft | test/hw3_clock.py:188-189 | the result is a suffix of the input, only whitespace was removed, and it does not start with whitespace |
| Json.TrimRight | test/hw3_clock.py:188-189 | the result is a prefix of the input, only whitespace was removed, and it does not end with whitespace |
| Json.TrimLeftPrefix | test/hw3_clock.py:188-189 | trimming whitespace put in front of a word gives back the word |
| Json.TrimRightSuffix | test/hw3_clock.py:188-189 | trimming whitespace put after a word gives back the word |
| Json.NatToString | test/hw3_clock.py:188-189 | the printed form of a natural number is a non-empty string of digits |
| AlarmRecords.NotLater | test/hw3_clock.py:244 | defines the comparison of the sort key: the tuples (y, m, d, h, min) compared lexicographically |
| AlarmRecords.NotLaterIsTotalOrder | test/hw3_clock.py:244 | the tuple order used as the sort key is reflexive, total, antisymmetric and transitive |
| AlarmRecords.SortsByTime | test/hw3_clock.py:244 | defines what the runtime's `sorted` by the key promises on every run: a result in time order holding the same alarms, in an order among equal keys that is left open |
| AlarmRecords.InsertSorts | test/hw3_clock.py:244 | inserting into a sorted list keeps it sorted |
| AlarmRecords.InsertKeeps | test/hw3_clock.py:243-244 | insertion adds exactly the new alarm to the list's contents |
| AlarmRecords.SortByTimeSorts | test/hw3_clock.py:244 | the insertion sort by (y, m, d, h, min) returns a sorted permutation of its input |
| AlarmRecords.InsertionSortSortsByTime | test/hw3_clock.py:244 | a sort that keeps the promise of the runtime's sort exists: the insertion sort is one |
| AlarmRecords.SameMinuteEitherOrder | test/hw3_clock.py:244 | two alarms of the same minute are in time order either way round, so the sort may return them in either order |
| AlarmRecords.TwoInOrder | test/hw3_clock.py:244 | any sort by time of two alarms of different minutes puts the earlier one first |
| AlarmRecords.RemoveAt | test/hw3_clock.py:153-157 | a valid position removes exactly that alarm: the alarms before it stay put, the ones after shift down by one, and the contents lose that alarm; any other index leaves the list as it is |
| AlarmRecords.ToggleAt | test/hw3_clock.py:159-163 | a valid position flips whether that alarm is enabled, stores the flag as a boolean and keeps its time; every other alarm is unchanged; any other index changes nothing |
| AlarmRecords.ToggleTwice | test/hw3_clock.py:227-228 | toggling a position twice restores every alarm's enabled state, and restores the list once the flag is a stored boolean |
| Routes.NewAlarmFields | test/hw3_clock.py:234-242 | a create succeeds exactly when `int()` accepts all five picked fields; the alarm then holds those integers and the sent `enabled` value, or true when none was sent |
| Routes.CreateRoundTrip | test/hw3_clock.py:234-242 | a body with short keys or long keys recreates the alarm, enabled by default or with the sent flag; with both spellings present the short keys win |
| Routes.CreateFromValues | test/hw3_clock.py:234-242 | any field values that `int()` maps to an alarm's numbers recreate that alarm |
| Routes.ShortPicks | test/hw3_clock.py:234-238 | in a short-key body each field is read from its short key and no `enabled` key is present |
| Routes.CreateFromText | test/hw3_clock.py:234-242 | numbers sent as decimal strings recreate the alarm exactly |
| Routes.PrintedField | test/hw3_clock.py:195 | `int()` on the printed form of an index gives back the index |
| Routes.QueryRoundTrip | test/hw3_clock.py:186-189 | the `/add` query built from an alarm's printed fields yields that alarm, with no `enabled` key |
| Routes.PostCreates | test/hw3_clock.py:233-247 | a successful create writes the runtime's sort of the old list with the new alarm appended; for any sort by time that list is in time order and holds exactly the old alarms plus the new one |
| Routes.OutOfRangeIsNoOp | test/hw3_clock.py:193-271 | an index outside [0, len) leaves the list unchanged on `/del` (193-199), the POST toggle (225-231) and the JSON delete (264-271), and the JSON routes still report success |
| Routes.InRangeChangesOne | test/hw3_clock.py:225-271 | a valid index toggles exactly that alarm (POST) or removes exactly that alarm (DELETE) |
| Routes.DelPrinted | test/hw3_clock.py:193-199 | `/del` with a printed index removes exactly that alarm when the index is valid, and changes nothing otherwise |
| Routes.DeleteAllClears | test/hw3_clock.py:258-262 | a DELETE body with a truthy `all` empties the list, whatever else it holds |
| Routes.AddAppends | test/hw3_clock.py:186-191 | `/add` keeps the old list as an exact prefix and puts the new alarm last, unsorted |
| Routes.NonObjectRefused | test/hw3_clock.py:249-251 | a body that is not JSON, or not a JSON object, is refused by both JSON routes |
| Json.Truthy | test/hw3_clock.py:258 | defines Python truthiness of a decoded value: false, 0, 0.0, null, the empty string, list and object are false |
| Json.IntOf | test/hw3_clock.py:226 | defines `int()` on a decoded value: booleans give 0 or 1, a real truncates toward zero, a string is parsed, anything else raises |
| Json.ParseInt | test/hw3_clock.py:195 | defines `int()` on a string: optional surrounding whitespace, an optional sign and at least one decimal digit |
| AlarmRecords.Alarm.IsEnabled | test/hw3_clock.py:378 | defines `a.get("enabled", True)` as a condition: a missing flag counts as enabled, a present one by its truthiness |
| AlarmRecords.SortByTime | test/hw3_clock.py:244 | defines an insertion sort by (y, m, d, h, min), one admissible sort; the model's POST does not use it |
| Routes.Pick | test/hw3_clock.py:234-238 | defines `data.get(short, data.get(long, 0))` |
| Routes.NewAlarm | test/hw3_clock.py:234-242 | defines the create parse: the five fields converted in order, the first failure stopping it, `enabled` as sent or true |
| Routes.PostEffect | test/hw3_clock.py:220-251 | defines POST: a non-JSON or non-object body fails, `toggle` flips a valid position or keeps the list, anything else creates, appends and applies the given sort |
| Routes.DeleteEffect | test/hw3_clock.py:253-256 | defines DELETE: a non-JSON body fails, an empty body reads as `{}`, a non-object fails |
| Routes.DeleteFrom | test/hw3_clock.py:257-271 | defines the DELETE body: a truthy `all` clears the list, otherwise `i` (default -1) removes a valid position |
| Routes.Arg | test/hw3_clock.py:188 | defines `req.args.get(k)`: the query text when the key is present, else `None` |
| Routes.QueryAlarm | test/hw3_clock.py:188-189 | defines the `/add` parse: each argument converted by `int()`, a missing one raising, no `enabled` key |
| Routes.AddEffect | test/hw3_clock.py:186-191 | defines `/add`: append the parsed alarm, unsorted |
| Routes.DelEffect | test/hw3_clock.py:193-199 | defines `/del`: `int()` of the argument (default -1) removes a valid position |
| Watchdog.Fires | test/hw3_clock.py:378-382 | defines when a position rings: in range, enabled, set for the current minute and not already rung |
| Watchdog.Due | test/hw3_clock.py:377-387 | defines the positions one tick rings, in list order |
| Watchdog.CreateRingsAgain | test/hw3_clock.py:382-384 | an alarm that rang rings again in the same minute after a create, under any sort by time, puts an earlier alarm before it |
| Watchdog.DeleteSilencesNext | test/hw3_clock.py:382-384 | after deleting a rung alarm, the next alarm sits on the rung position and never rings |
| Sound.StarIsPlayable | test/hw3_clock.py:18-28 | the melody has fifteen notes, each in the frequency table; the rest is its only silent note, and every other table entry is a positive frequency |
| Sound.FreqOf | test/hw3_clock.py:308 | defines `NOTE_FREQS.get(note, 0)` over the nine-entry table |
| Sound.Tones | test/hw3_clock.py:308-313 | defines the speaker setting of each note of a run, one per note |
| Watchdog.FireLog | test/hw3_clock.py:372-389 | defines the positions rung by the `while True` loop over a run of tick minutes, the list unchanged, each tick remembering what it rang |
| Watchdog.DueUpTo | test/hw3_clock.py:377-387 | the positions one tick rings are exactly the enabled alarms set for the current minute that have not rung, in increasing order |
| Watchdog.DueIdempotent | test/hw3_clock.py:382-384 | a second tick in the same minute rings nothing once the first tick's positions are remembered |
| Watchdog.NoneDueAfter | test/hw3_clock.py:382-384 | once every position that would ring is remembered, no position rings |
| Watchdog.FiresOnce | test/hw3_clock.py:369-389 | over any run of ticks with the same list, each position rings at most once, and it rings exactly when it is enabled, has not rung before and some tick falls in its minute |
| Sound.ToneOf | test/hw3_clock.py:308-313 | a rest or unknown note silences the speaker; any other note sounds its table frequency, which is positive |
| Sound.FreqAfter | test/hw3_clock.py:308-313 | defines the speaker frequency after a run of notes: the last sounding note's, unchanged by rests |
| Sound.Cycle | test/hw3_clock.py:324-325 | defines the first n notes heard while `while is_ringing` replays the melody; it has exactly n notes |
| Sound.TonesAppend | test/hw3_clock.py:304-314 | the tones of two runs of notes played one after the other are the tones of each run, in order |
| Sound.FreqAfterAppend | test/hw3_clock.py:308-313 | the speaker's frequency after two runs of notes is the frequency the second run leaves, starting from the first run's |
| Sound.CycleAt | test/hw3_clock.py:324-325 | note k of the repeated melody is note k mod |melody| of the melody |
| Clock.NotesBeforeStop | test/hw3_clock.py:304-307 | defines how many notes start when the stop route runs during one note: up to and including that note, never more than the song |
| Clock.NoteStep | test/hw3_clock.py:308-313 | starting one note extends the tone log by that note's tone and moves the frequency to its pitch, if it has one |
| Clock.LogStep | test/hw3_clock.py:324-325 | the log and frequency after two passes are those of the concatenated notes |
| Clock.RingStep | test/hw3_clock.py:324-325 | each pass of the ring loop keeps the notes heard so far a prefix of the repeated melody |
| Clock.JsonReply | test/hw3_clock.py:220-275 | defines the JSON routes' answer: the list after a write, the unchanged list on a no-op, `ok: false` with the failure when the body or a conversion fails |
| Clock.PageReply | test/hw3_clock.py:186-199 | defines the form routes' answer: the redirect page, or the exception escaping the handler when a conversion fails |
| Clock.AlarmClockState.Boot | test/hw3_clock.py:121-135 | start-up loads the saved list; a missing file is created empty and an unreadable one gives an empty list; the speaker starts silent at 1000 Hz, the flag down and nothing rung |
| Clock.AlarmClockState.Save | test/hw3_clock.py:139-146 | the file holds the whole list in memory |
| Clock.AlarmClockState.AddAlarm | test/hw3_clock.py:148-151 | the alarm is appended at the end and the list saved |
| Clock.AlarmClockState.DeleteAlarm | test/hw3_clock.py:153-157 | the list becomes `RemoveAt` of the old one; it is saved only when the index is valid |
| Clock.AlarmClockState.ToggleAlarm | test/hw3_clock.py:159-163 | the list becomes `ToggleAt` of the old one; it is saved only when the index is valid |
| Clock.AlarmClockState.ListAlarms | test/hw3_clock.py:216-218 | GET answers with the current list and changes nothing |
| Clock.AlarmClockState.PostAlarms | test/hw3_clock.py:220-251 | the list and file change exactly as `PostEffect` says; the reply is the new list or the failure; a synced file stays synced |
| Clock.AlarmClockState.DeleteAlarms | test/hw3_clock.py:253-275 | the list and file change exactly as `DeleteEffect` says, an empty body reading as `{}`; the reply is the new list or the failure; a synced file stays synced |
| Clock.AlarmClockState.Add | test/hw3_clock.py:186-191 | the list and file change exactly as `AddEffect` says; a bad argument escapes as an exception, otherwise the reply is the redirect |
| Clock.AlarmClockState.Del | test/hw3_clock.py:193-199 | the list and file change exactly as `DelEffect` says; a bad argument escapes as an exception, otherwise the reply is the redirect |
| Clock.AlarmClockState.ApiReset | test/hw3_clock.py:201-208 | the list is emptied and saved, and the reply reports the empty list |
| Clock.AlarmClockState.RingTest | test/hw3_clock.py:282-287 | the flag is raised and one more ring task is spawned, even when already ringing |
| Clock.AlarmClockState.RingStop | test/hw3_clock.py:289-295 | the flag is lowered and the speaker silenced at once |
| Clock.AlarmClockState.PlaySong | test/hw3_clock.py:302-316 | when the flag is up at the start, the speaker takes each note's tone (duty 0 for a rest, duty 512 at the table frequency otherwise) up to and including the note during which stop runs; nothing sounds when the flag is down; the flag is lowered exactly when stop ran; the speaker ends silent |
| Clock.AlarmClockState.RingTask | test/hw3_clock.py:318-330 | the melody repeats until the stop route runs; exactly the first stopAt + 1 notes of the repetition sound, and the task ends with the flag down and the speaker silent |
| Clock.AlarmClockState.Tick | test/hw3_clock.py:372-389 | one watchdog tick rings exactly `Due` of the current minute, remembers those positions and spawns one ring task for each |

## Left out

- Wi-Fi set-up (`wifi_auto`), the OLED display task, the HTML index page and `/api/time` are hardware, display or clock I/O and are not modelled.
- The first `ring_task` and `play_song` are not modelled separately. The `ring_task` at lines 106-111 is shadowed by the one at line 318. `play_song` does what `PlaySong` does, but its blocking sleep lets no stop run mid-song, which is `stopDuring >= |notes|`. `NOTES_SKYCASTLE` is never played.
- The asyncio scheduler is not modelled. The ring tasks spawned by the watchdog and the test route are counted (`ringTasks`), not run. Two ring tasks running at once, and the test route raising the flag again in the middle of a song, are not modelled.
- Clock.AlarmClockState.RingTask: only runs that the stop route ends are modelled, because a ring that is never stopped does not terminate.
- Clock.AlarmClockState.PlaySong: note durations are not modelled; the stop route may run at most once, during the chosen note.
- Exceptions inside the ring loop (lines 326-327) are not modelled.
- Add, Delete and toggle: `update_oled` is called after each save but is not defined in `hw3_clock.py`, so those calls would raise after the save. The model ends each operation at the save.
- A failed file write is not modelled: every save succeeds. The content of an unreadable file and the JSON text format are not modelled either.
- Alarms loaded from the file are assumed to hold the five integer keys.
- JSON decoding of the request body is not modelled. The body arrives decoded, or marked as not JSON.
- Json.ParseInt: `int()` on strings covers ASCII digits, a sign and surrounding whitespace only. It does not accept underscores or non-ASCII digits.
- Json.IntOf: `int()` of a float is truncation toward zero of an exact real. Binary rounding and infinities are not modelled.
- The text of error messages is not modelled. A failure carries only which conversion failed.
- A request to `/api/alarms` with a method other than GET, POST or DELETE returns `None` from the handler. That case is not modelled.
- Console logging (`print`) is not modelled.
- Routes.PostCreates: does not say where the new alarm lands among the alarms of its own minute, because MicroPython's list sort is not stable; the sort is a parameter that promises only time order and the same alarms.
- AlarmRecords.SortByTime: is not the runtime's sort, which is MicroPython's quicksort inside the interpreter; it is only one sort that keeps the same promise.

=== FILE: alarm_records.dfy ===
/**
 * The alarm record kept by the clock and the pure list operations behind the
 * store's mutations: removal and toggling by position, and what the
 * runtime's sort by (y, m, d, h, min), run after an API-driven creation,
 * promises.
 */
module AlarmRecords {
  import opened Wrappers
  import opened Json

  /** A wall-clock minute: the tuple (year, month, day, hour, minute). */
  datatype Moment = Moment(y: int, m: int, d: int, h: int, min: int)

  /** `a <= b` under Python's lexicographic tuple comparison. */
  predicate NotLater(a: Moment, b: Moment) {
    a.y < b.y || (a.y == b.y &&
    (a.m < b.m || (a.m == b.m &&
    (a.d < b.d || (a.d == b.d &&
    (a.h < b.h || (a.h == b.h && a.min <= b.min)))))))
  }

  /**
   * One stored alarm. The five fields are whatever integers the request
   * carried (no range check). `enabled` is the stored JSON value, or None when
   * the record has no such key, as records created by the `/add` route.
   */
  datatype Alarm = Alarm(y: int, m: int, d: int, h: int, min: int, enabled: Option<Value>) {

    function When(): Moment {
      Moment(y, m, d, h, min)
    }

    /** `a.get("enabled", True)` read as a condition: a missing key counts as enabled. */
    predicate IsEnabled() {
      enabled.None? || Truthy(enabled.value)
    }
  }

  /** Tuple order is total, antisymmetric and transitive, so sorting by it is well defined. */
  lemma NotLaterIsTotalOrder(a: Moment, b: Moment, c: Moment)
    ensures NotLater(a, a)
    ensures NotLater(a, b) || NotLater(b, a)
    ensures NotLater(a, b) && NotLater(b, a) ==> a == b
    ensures NotLater(a, b) && NotLater(b, c) ==> NotLater(a, c)
  {
  }

  predicate SortedByTime(s: seq<Alarm>) {
    forall i, j | 0 <= i < j < |s| :: NotLater(s[i].When(), s[j].When())
  }

  /**
   * What `sorted(s, key=lambda a: (a['y'], a['m'], a['d'], a['h'], a['min']))`
   * promises on the device: the result is in time order and holds exactly
   * the alarms of `s`. MicroPython's list sort is not stable, so the order it
   * leaves alarms of one minute in is not fixed; the model takes the sort as
   * a parameter that keeps this promise and nothing more.
   */
  ghost predicate SortsByTime(sort: seq<Alarm> -> seq<Alarm>) {
    forall s :: SortedByTime(sort(s)) && multiset(sort(s)) == multiset(s)
  }

  /** Inserts `a` before the first alarm that is not earlier than it. */
  function Insert(a: Alarm, s: seq<Alarm>): seq<Alarm> {
    if s == [] || NotLater(a.When(), s[0].When()) then [a] + s
    else [s[0]] + Insert(a, s[1..])
  }

  /** An insertion sort by time: one sort that keeps the promise of `SortsByTime`. */
  function SortByTime(s: seq<Alarm>): seq<Alarm> {
    if s == [] then [] else Insert(s[0], SortByTime(s[1..]))
  }

  lemma {:induction false} InsertKeeps(a: Alarm, s: seq<Alarm>)
    ensures multiset(Insert(a, s)) == multiset(s) + multiset{a}
  {
    if s != [] && !NotLater(a.When(), s[0].When()) {
      InsertKeeps(a, s[1..]);
      assert s == [s[0]] + s[1..];
    }
  }

  /** Every alarm of `Insert(a, s)` is `a` or one of `s`. */
  lemma InsertMember(a: Alarm, s: seq<Alarm>, x: Alarm)
    requires x in Insert(a, s)
    ensures x == a || x in s
  {
    InsertKeeps(a, s);
    assert x in multiset(Insert(a, s));
  }

  lemma {:induction false} InsertSorts(a: Alarm, s: seq<Alarm>)
    requires SortedByTime(s)
    ensures SortedByTime(Insert(a, s))
  {
    if s != [] && !NotLater(a.When(), s[0].When()) {
      var rest := Insert(a, s[1..]);
      InsertSorts(a, s[1..]);
      forall x | x in rest
        ensures NotLater(s[0].When(), x.When())
      {
        InsertMember(a, s[1..], x);
        if x != a {
          var k :| 0 <= k < |s[1..]| && s[1..][k] == x;
          assert s[k + 1] == x;
        }
      }
      var r := [s[0]] + rest;
      forall i, j | 0 <= i < j < |r|
        ensures NotLater(r[i].When(), r[j].When())
      {
        if i == 0 {
          assert r[j] in rest;
        } else {
          assert r[i] == rest[i - 1] && r[j] == rest[j - 1];
        }
      }
    }
  }

  /** The sort orders the list and keeps exactly the same alarms. */
  lemma {:induction false} SortByTimeSorts(s: seq<Alarm>)
    ensures SortedByTime(SortByTime(s))
    ensures multiset(SortByTime(s)) == multiset(s)
  {
    if s != [] {
      SortByTimeSorts(s[1..]);
      InsertSorts(s[0], SortByTime(s[1..]));
      InsertKeeps(s[0], SortByTime(s[1..]));
      assert s == [s[0]] + s[1..];
    }
  }

  /** A sort by time exists, so a sort parameter that keeps the promise can be supplied. */
  lemma InsertionSortSortsByTime()
    ensures SortsByTime(SortByTime)
  {
    forall s: seq<Alarm>
      ensures SortedByTime(SortByTime(s)) && multiset(SortByTime(s)) == multiset(s)
    {
      SortByTimeSorts(s);
    }
  }

  /**
   * Two alarms of the same minute may come out of the sort in either order:
   * both orders are sorted and hold the same alarms.
   */
  lemma SameMinuteEitherOrder(x: Alarm, n: Alarm)
    requires x.When() == n.When()
    ensures SortedByTime([x, n]) && SortedByTime([n, x])
    ensures multiset([x, n]) == multiset([n, x])
  {
  }

  /** Sorting two alarms of different minutes puts the earlier first, whatever sort is used. */
  lemma {:induction false} TwoInOrder(r: seq<Alarm>, a: Alarm, b: Alarm)
    requires SortedByTime(r) && multiset(r) == multiset([a, b])
    requires !NotLater(a.When(), b.When())
    ensures r == [b, a]
  {
    assert |r| == |multiset(r)| == 2;
    assert r == [r[0], r[1]];
    assert r[0] in multiset(r) && r[1] in multiset(r);
    assert NotLater(r[0].When(), r[1].When());
    if r[0] == a {
      assert false;
    }
    assert multiset(r) == multiset{b, r[1]};
  }

  /** `del s[i]` when `0 <= i < len(s)`; any other index leaves the list as it is. */
  function RemoveAt(s: seq<Alarm>, i: int): (r: seq<Alarm>)
    ensures 0 <= i < |s| ==> |r| == |s| - 1
    ensures 0 <= i < |s| ==> forall j | 0 <= j < i :: r[j] == s[j]
    ensures 0 <= i < |s| ==> forall j | i <= j < |r| :: r[j] == s[j + 1]
    ensures 0 <= i < |s| ==> multiset(r) + multiset{s[i]} == multiset(s)
    ensures !(0 <= i < |s|) ==> r == s
  {
    if 0 <= i < |s| then
      assert s == s[..i] + [s[i]] + s[i + 1..];
      s[..i] + s[i + 1..]
    else s
  }

  /**
   * `s[i]["enabled"] = not s[i].get("enabled", True)` when `0 <= i < len(s)`;
   * any other index leaves the list as it is.
   */
  function ToggleAt(s: seq<Alarm>, i: int): (r: seq<Alarm>)
    ensures |r| == |s|
    ensures forall j | 0 <= j < |s| && j != i :: r[j] == s[j]
    ensures 0 <= i < |s| ==> r[i].When() == s[i].When() && r[i].IsEnabled() == !s[i].IsEnabled()
    ensures 0 <= i < |s| ==> r[i].enabled.Some? && r[i].enabled.value.JBool?
  {
    if 0 <= i < |s| then s[i := s[i].(enabled := Some(JBool(!s[i].IsEnabled())))] else s
  }

  /**
   * Toggling the same position twice restores whether the alarm is enabled,
   * and restores the record itself once its flag is a stored boolean.
   */
  lemma ToggleTwice(s: seq<Alarm>, i: int)
    ensures |ToggleAt(ToggleAt(s, i), i)| == |s|
    ensures forall j | 0 <= j < |s| :: ToggleAt(ToggleAt(s, i), i)[j].IsEnabled() == s[j].IsEnabled()
    ensures 0 <= i < |s| && s[i].enabled.Some? && s[i].enabled.value.JBool? ==> ToggleAt(ToggleAt(s, i), i) == s
  {
  }
}

=== FILE: clock.dfy ===
/**
 * The clock's shared state and everything that changes it: the alarm list
 * and its saved copy, the web routes that edit them, the watchdog tick, the
 * ringing flag and the speaker. All of it lives in one object, as the
 * module-level globals it models do.
 */
module Clock {
  import opened Wrappers
  import opened Json
  import opened AlarmRecords
  import opened Routes
  import opened Watchdog
  import opened Sound

  /** The alarm file: absent, holding a list, or present but not readable as one. */
  datatype Disk = NoFile | Holds(alarms: seq<Alarm>) | Unreadable

  /** What a route handler answers. */
  datatype Reply =
    | Listing(alarms: seq<Alarm>)  // {"alarms": [...]}
    | Done(alarms: seq<Alarm>)     // {"ok": true, "alarms": [...]}
    | Failed(fault: Fault)         // {"ok": false, "err": ...}
    | Redirect                     // a page that sends the browser back to "/"
    | RingStarted                  // {"ok": true, "msg": "Ringing"}
    | Raised(fault: Fault)         // an exception left the handler; the web server deals with it

  const SilentDuty := 0
  const SoundingDuty := 512
  const BootFreq := 1000

  /** The answer of the JSON alarm routes for an effect on `current`. */
  function JsonReply(current: seq<Alarm>, e: Effect): Reply {
    match e
    case Write(s) => Done(s)
    case Keep => Done(current)
    case Error(f) => Failed(f)
  }

  /** The answer of the form routes `/add` and `/del`, which have no error handling of their own. */
  function PageReply(e: Effect): Reply {
    if e.Error? then Raised(e.fault) else Redirect
  }

  /** How many notes of `notes` start when the stop route runs while note `stopDuring` is held. */
  function NotesBeforeStop(notes: seq<Note>, stopDuring: nat): (n: nat)
    ensures n <= |notes|
  {
    if stopDuring < |notes| then stopDuring + 1 else |notes|
  }

  /** Playing note `k` extends the speaker log by its tone and moves the frequency to its pitch, if any. */
  lemma NoteStep(t0: seq<Tone>, f0: int, notes: seq<Note>, k: nat)
    requires k < |notes|
    ensures t0 + Tones(notes[..k + 1]) == (t0 + Tones(notes[..k])) + [ToneOf(notes[k])]
    ensures FreqAfter(f0, notes[..k + 1])
            == if FreqOf(notes[k].name) == 0 then FreqAfter(f0, notes[..k]) else FreqOf(notes[k].name)
  {
    assert notes[..k + 1] == notes[..k] + [notes[k]];
    TonesAppend(notes[..k], [notes[k]]);
    assert notes[..k + 1][..k] == notes[..k];
  }

  /** The speaker log and frequency after two stretches of notes are those after their concatenation. */
  lemma LogStep(t0: seq<Tone>, tb: seq<Tone>, ta: seq<Tone>, f0: int, fb: int, fa: int, before: seq<Note>, part: seq<Note>)
    requires tb == t0 + Tones(before) && ta == tb + Tones(part)
    requires fb == FreqAfter(f0, before) && fa == FreqAfter(fb, part)
    ensures ta == t0 + Tones(before + part) && fa == FreqAfter(f0, before + part)
  {
    TonesAppend(before, part);
    FreqAfterAppend(f0, before, part);
  }

  /** One pass of the ring loop keeps the notes heard so far a prefix of the repetition. */
  lemma RingStep(m: seq<Note>, before: seq<Note>, part: seq<Note>, wasLeft: nat, left: nat, stopAt: nat, ringing: bool)
    requires m != []
    requires before + Cycle(m, wasLeft + 1) == Cycle(m, stopAt + 1)
    requires part == m[..NotesBeforeStop(m, wasLeft)]
    requires ringing == (wasLeft >= |m|)
    requires ringing ==> left == wasLeft - |m|
    ensures ringing ==> (before + part) + Cycle(m, left + 1) == Cycle(m, stopAt + 1)
    ensures !ringing ==> before + part == Cycle(m, stopAt + 1)
  {
    CycleUnfold(m, wasLeft + 1);
    if ringing {
      assert part == m;
    }
  }

  class AlarmClockState {
    var alarms: seq<Alarm>
    /** The alarm file as last written. */
    var persisted: Disk
    /** Positions the watchdog has rung since it started. */
    var lastTriggered: set<nat>
    var isRinging: bool
    /** The speaker's PWM duty and frequency. */
    var duty: int
    var freq: int
    /** Ring tasks handed to the scheduler. */
    var ringTasks: nat
    /** The speaker's state just after each note started, in order. */
    ghost var tones: seq<Tone>

    /** The saved file holds exactly the list in memory. */
    predicate Synced()
      reads this
    {
      persisted == Holds(alarms)
    }

    /** What the speaker is doing now, read off its duty and frequency. */
    function Speaker(): Tone
      reads this
    {
      if duty == SilentDuty then Silence
      else if duty == SoundingDuty then Pitch(freq)
      else OffDuty(duty, freq)
    }

    /** The list and the file after `e` is applied to the list `before` and the file `savedBefore`. */
    ghost predicate Applied(before: seq<Alarm>, savedBefore: Disk, e: Effect)
      reads this
    {
      match e
      case Write(s) => alarms == s && persisted == Holds(s)
      case _ => alarms == before && persisted == savedBefore
    }

    /**
     * Start-up: `load_alarms` reads the file, creating it with `[]` when it is
     * missing and starting empty when it cannot be read; the speaker starts
     * silent at 1000 Hz and the watchdog with nothing rung.
     */
    constructor Boot(disk: Disk)
      ensures alarms == (if disk.Holds? then disk.alarms else [])
      ensures persisted == (if disk.NoFile? then Holds([]) else disk)
      ensures !disk.Unreadable? ==> Synced()
      ensures lastTriggered == {} && !isRinging && ringTasks == 0 && tones == []
      ensures duty == SilentDuty && freq == BootFreq
    {
      match disk {
        case NoFile =>
          alarms := [];
          persisted := Holds([]);
        case Holds(s) =>
          alarms := s;
          persisted := disk;
        case Unreadable =>
          alarms := [];
          persisted := disk;
      }
      lastTriggered := {};
      isRinging := false;
      duty := SilentDuty;
      freq := BootFreq;
      ringTasks := 0;
      tones := [];
    }

    /** `save_alarms(alarms)`: the whole list overwrites the file. */
    method Save()
      modifies this`persisted
      ensures persisted == Holds(alarms)
    {
      persisted := Holds(alarms);
    }

    /** `add_alarm`: append, then save. */
    method AddAlarm(a: Alarm)
      modifies this`alarms, this`persisted
      ensures alarms == old(alarms) + [a]
      ensures Synced()
    {
      alarms := alarms + [a];
      Save();
    }

    /** `delete_alarm`: remove a valid position and save; any other index changes nothing. */
    method DeleteAlarm(i: int)
      modifies this`alarms, this`persisted
      ensures alarms == RemoveAt(old(alarms), i)
      ensures if 0 <= i < |old(alarms)| then Synced() else persisted == old(persisted)
    {
      if 0 <= i < |alarms| {
        alarms := alarms[..i] + alarms[i + 1..];
        Save();
      }
    }

    /** `toggle_alarm`: flip a valid position's flag and save; any other index changes nothing. */
    method ToggleAlarm(i: int)
      modifies this`alarms, this`persisted
      ensures alarms == ToggleAt(old(alarms), i)
      ensures if 0 <= i < |old(alarms)| then Synced() else persisted == old(persisted)
    {
      if 0 <= i < |alarms| {
        alarms := alarms[i := alarms[i].(enabled := Some(JBool(!alarms[i].IsEnabled())))];
        Save();
      }
    }

    /** GET /api/alarms. */
    method ListAlarms() returns (reply: Reply)
      ensures reply == Listing(alarms)
    {
      reply := Listing(alarms);
    }

    /** POST /api/alarms: toggle by `{"toggle": i}`, otherwise create, re-sort with the runtime's `sort` and save. */
    method PostAlarms(body: Body, sort: seq<Alarm> -> seq<Alarm>) returns (reply: Reply)
      modifies this`alarms, this`persisted
      ensures Applied(old(alarms), old(persisted), PostEffect(old(alarms), body, sort))
      ensures reply == JsonReply(old(alarms), PostEffect(old(alarms), body, sort))
      ensures old(Synced()) ==> Synced()
    {
      if !body.Decoded? {
        return Failed(BadJson);
      }
      if !body.value.JObj? {
        return Failed(NotAnObject);
      }
      var data := body.value.fields;
      if "toggle" in data {
        var idx := IntOf(data["toggle"]);
        if idx.None? {
          return Failed(NotAnInteger(data["toggle"]));
        }
        var i := idx.value;
        if 0 <= i < |alarms| {
          alarms := alarms[i := alarms[i].(enabled := Some(JBool(!alarms[i].IsEnabled())))];
          Save();
        }
        return Done(alarms);
      }
      var created := NewAlarm(data);
      if created.Err? {
        return Failed(created.fault);
      }
      alarms := alarms + [created.value];
      alarms := sort(alarms);
      Save();
      return Done(alarms);
    }

    /** DELETE /api/alarms: clear on a truthy `all`, otherwise remove position `i` (default -1). */
    method DeleteAlarms(body: Body) returns (reply: Reply)
      modifies this`alarms, this`persisted
      ensures Applied(old(alarms), old(persisted), DeleteEffect(old(alarms), body))
      ensures reply == JsonReply(old(alarms), DeleteEffect(old(alarms), body))
      ensures old(Synced()) ==> Synced()
    {
      var data: map<string, Value>;
      match body {
        case Malformed =>
          return Failed(BadJson);
        case Empty =>
          data := map[];
        case Decoded(v) =>
          if !v.JObj? {
            return Failed(NotAnObject);
          }
          data := v.fields;
      }
      assert DeleteEffect(old(alarms), body) == DeleteFrom(alarms, data);
      if "all" in data && Truthy(data["all"]) {
        alarms := [];
        Save();
        return Done(alarms);
      }
      var iv := if "i" in data then data["i"] else JInt(-1);
      var idx := IntOf(iv);
      if idx.None? {
        return Failed(NotAnInteger(iv));
      }
      var i := idx.value;
      if 0 <= i < |alarms| {
        alarms := alarms[..i] + alarms[i + 1..];
        Save();
      }
      return Done(alarms);
    }

    /** GET /add?y=..&m=..&d=..&h=..&min=..: append without sorting and save. */
    method Add(args: map<string, string>) returns (reply: Reply)
      modifies this`alarms, this`persisted
      ensures Applied(old(alarms), old(persisted), AddEffect(old(alarms), args))
      ensures reply == PageReply(AddEffect(old(alarms), args))
      ensures old(Synced()) ==> Synced()
    {
      var parsed := QueryAlarm(args);
      if parsed.Err? {
        return Raised(parsed.fault);
      }
      alarms := alarms + [parsed.value];
      Save();
      return Redirect;
    }

    /** GET /del?i=..: remove a valid position and save. */
    method Del(args: map<string, string>) returns (reply: Reply)
      modifies this`alarms, this`persisted
      ensures Applied(old(alarms), old(persisted), DelEffect(old(alarms), args))
      ensures reply == PageReply(DelEffect(old(alarms), args))
      ensures old(Synced()) ==> Synced()
    {
      var iv := if "i" in args then JStr(args["i"]) else JInt(-1);
      var idx := IntOf(iv);
      if idx.None? {
        return Raised(NotAnInteger(iv));
      }
      var i := idx.value;
      if 0 <= i < |alarms| {
        alarms := alarms[..i] + alarms[i + 1..];
        Save();
      }
      return Redirect;
    }

    /** /api/alarms/reset: empty the list and save. */
    method ApiReset() returns (reply: Reply)
      modifies this`alarms, this`persisted
      ensures alarms == [] && Synced()
      ensures reply == Done([])
    {
      alarms := [];
      Save();
      return Done(alarms);
    }

    /** /api/ring/test: raise the ringing flag and hand a new ring task to the scheduler. */
    method RingTest() returns (reply: Reply)
      modifies this`isRinging, this`ringTasks
      ensures isRinging && ringTasks == old(ringTasks) + 1
      ensures reply == RingStarted
    {
      isRinging := true;
      ringTasks := ringTasks + 1;
      return RingStarted;
    }

    /** /api/ring/stop: lower the flag and silence the speaker at once. */
    method RingStop() returns (reply: Reply)
      modifies this`isRinging, this`duty
      ensures !isRinging && duty == SilentDuty
      ensures reply == Redirect
    {
      isRinging := false;
      duty := SilentDuty;
      return Redirect;
    }

    /**
     * `play_song_async`: before each note, stop if the flag is down;
     * otherwise a rest or unknown note silences the speaker and any other
     * note sets its frequency at duty 512. While a note is held the stop
     * route may run; here it runs while note `stopDuring` is held (never, if
     * there is no such note). The speaker is silent at the end.
     */
    method PlaySong(notes: seq<Note>, stopDuring: nat)
      modifies this`isRinging, this`duty, this`freq, this`tones
      ensures var played := if old(isRinging) then notes[..NotesBeforeStop(notes, stopDuring)] else [];
        tones == old(tones) + Tones(played) && freq == FreqAfter(old(freq), played)
      ensures isRinging == (old(isRinging) && stopDuring >= |notes|)
      ensures duty == SilentDuty
    {
      ghost var playing, t0, f0 := isRinging, tones, freq;
      var k := 0;
      while k < |notes|
        invariant 0 <= k <= |notes|
        invariant !playing ==> k == 0 && !isRinging
        invariant playing ==> k <= stopDuring + 1 && isRinging == (k <= stopDuring)
        invariant tones == t0 + Tones(notes[..k])
        invariant freq == FreqAfter(f0, notes[..k])
      {
        if !isRinging {
          break;
        }
        NoteStep(t0, f0, notes, k);
        var f := FreqOf(notes[k].name);
        if f == 0 {
          duty := SilentDuty;
        } else {
          freq := f;
          duty := SoundingDuty;
        }
        tones := tones + [Speaker()];
        if k == stopDuring {
          var stopped := RingStop();
        }
        k := k + 1;
      }
      duty := SilentDuty;
    }

    /**
     * `ring_task`: raise the flag and play the melody over and over while the
     * flag is up; the stop route runs while note `stopAt` of the repetition is
     * held. Exactly the first `stopAt + 1` notes of the repetition are played
     * and the speaker ends silent.
     */
    method RingTask(stopAt: nat)
      modifies this`isRinging, this`duty, this`freq, this`tones
      ensures tones == old(tones) + Tones(Cycle(Star, stopAt + 1))
      ensures freq == FreqAfter(old(freq), Cycle(Star, stopAt + 1))
      ensures !isRinging && duty == SilentDuty
    {
      ghost var t0, f0 := tones, freq;
      isRinging := true;
      var left: nat := stopAt;
      ghost var heard: seq<Note> := [];
      while isRinging
        invariant isRinging ==> heard + Cycle(Star, left + 1) == Cycle(Star, stopAt + 1)
        invariant !isRinging ==> heard == Cycle(Star, stopAt + 1)
        invariant tones == t0 + Tones(heard)
        invariant freq == FreqAfter(f0, heard)
        decreases isRinging, left
      {
        ghost var before, wasLeft, tb, fb := heard, left, tones, freq;
        PlaySong(Star, left);
        ghost var part := Star[..NotesBeforeStop(Star, wasLeft)];
        if isRinging {
          left := left - |Star|;
        }
        RingStep(Star, before, part, wasLeft, left, stopAt, isRinging);
        LogStep(t0, tb, tones, f0, fb, freq, before, part);
        heard := before + part;
      }
      duty := SilentDuty;
    }

    /**
     * One watchdog tick at minute `now` (the body of `alarm_task`'s loop):
     * every enabled alarm set for `now` whose position has not rung yet
     * rings, in position order, and its position is remembered.
     */
    method Tick(now: Moment) returns (fired: seq<nat>)
      modifies this`lastTriggered, this`ringTasks
      ensures fired == Due(alarms, now, old(lastTriggered))
      ensures lastTriggered == old(lastTriggered) + Elements(fired)
      ensures ringTasks == old(ringTasks) + |fired|
    {
      fired := [];
      for i := 0 to |alarms|
        invariant fired == DueUpTo(alarms, now, old(lastTriggered), i)
        invariant lastTriggered == old(lastTriggered) + Elements(fired)
        invariant ringTasks == old(ringTasks) + |fired|
      {
        var a := alarms[i];
        if !a.IsEnabled() {
          continue;
        }
        if a.When() == now && i !in lastTriggered {
          lastTriggered := lastTriggered + {i};
          ringTasks := ringTasks + 1;
          fired := fired + [i];
        }
      }
    }
  }
}

=== FILE: json.dfy ===
/**
 * Decoded JSON values as the clock's handlers see them after the body has
 * been parsed, together with the two Python built-ins the handlers apply to
 * them: truthiness (`if data.get("all")`) and `int(...)`.
 */
module Json {
  import opened Wrappers

  /** A decoded JSON value. A number written with a fraction or an exponent is kept as an exact real. */
  datatype Value =
    | JNull
    | JBool(b: bool)
    | JInt(i: int)
    | JReal(r: real)
    | JStr(s: string)
    | JArr(items: seq<Value>)
    | JObj(fields: map<string, Value>)

  /** Python truthiness of a decoded value: null, false, zero and empty containers are false. */
  predicate Truthy(v: Value) {
    match v
    case JNull => false
    case JBool(b) => b
    case JInt(i) => i != 0
    case JReal(r) => r != 0.0
    case JStr(s) => s != ""
    case JArr(items) => items != []
    case JObj(fields) => fields != map[]
  }

  predicate IsSpace(c: char) {
    c == ' ' || '\t' <= c <= '\r'
  }

  predicate IsDigit(c: char) {
    '0' <= c <= '9'
  }

  predicate AllDigits(s: string) {
    forall k | 0 <= k < |s| :: IsDigit(s[k])
  }

  predicate AllSpace(s: string) {
    forall k | 0 <= k < |s| :: IsSpace(s[k])
  }

  /** `s` without its leading whitespace. */
  function TrimLeft(s: string): (r: string)
    ensures |r| <= |s| && r == s[|s| - |r|..]
    ensures forall k | 0 <= k < |s| - |r| :: IsSpace(s[k])
    ensures r != [] ==> !IsSpace(r[0])
  {
    if s != [] && IsSpace(s[0]) then TrimLeft(s[1..]) else s
  }

  /** `s` without its trailing whitespace. */
  function TrimRight(s: string): (r: string)
    ensures |r| <= |s| && r == s[..|r|]
    ensures forall k | |r| <= k < |s| :: IsSpace(s[k])
    ensures r != [] ==> !IsSpace(r[|r| - 1])
  {
    if s != [] && IsSpace(s[|s| - 1]) then TrimRight(s[..|s| - 1]) else s
  }

  /** The number a string of decimal digits denotes. */
  function DigitsValue(ds: string): nat
    requires AllDigits(ds)
  {
    if ds == [] then 0 else DigitsValue(ds[..|ds| - 1]) * 10 + (ds[|ds| - 1] as int - '0' as int)
  }

  /**
   * Python's `int(s)` on a string: surrounding whitespace is ignored, then an
   * optional sign and at least one decimal digit; anything else is refused
   * (Python raises ValueError).
   */
  function ParseInt(s: string): Option<int> {
    ParseSigned(TrimRight(TrimLeft(s)))
  }

  /** An optional sign followed by one or more decimal digits, and nothing else. */
  function ParseSigned(t: string): Option<int> {
    if t == [] then None
    else
      var digits := if t[0] == '-' || t[0] == '+' then t[1..] else t;
      if digits != [] && AllDigits(digits) then
        Some(if t[0] == '-' then -(DigitsValue(digits) as int) else DigitsValue(digits))
      else None
  }

  function DigitChar(d: nat): (c: char)
    requires d < 10
    ensures IsDigit(c) && c as int - '0' as int == d
  {
    ('0' as int + d) as char
  }

  /** Python's `str(n)` for a natural number: its decimal digits, most significant first. */
  function NatToString(n: nat): (r: string)
    ensures r != [] && AllDigits(r)
  {
    if n < 10 then [DigitChar(n)] else NatToString(n / 10) + [DigitChar(n % 10)]
  }

  /** Python's `str(n)` for an integer. */
  function IntToString(n: int): (r: string) {
    if n < 0 then "-" + NatToString(-n) else NatToString(n)
  }

  /**
   * Python's `int(v)` on a decoded JSON value: booleans are 0 or 1, a real is
   * truncated toward zero, a string is parsed; null, lists and objects are
   * refused (Python raises TypeError).
   */
  function IntOf(v: Value): Option<int> {
    match v
    case JBool(b) => Some(if b then 1 else 0)
    case JInt(i) => Some(i)
    case JReal(r) => Some(if r >= 0.0 then r.Floor else -((-r).Floor))
    case JStr(s) => ParseInt(s)
    case _ => None
  }

  lemma {:induction false} DigitsOfNat(n: nat)
    ensures DigitsValue(NatToString(n)) == n
  {
    if n >= 10 {
      var p := NatToString(n / 10);
      var r := p + [DigitChar(n % 10)];
      assert r[..|r| - 1] == p;
      DigitsOfNat(n / 10);
    }
  }

  /** Reading back what `str(n)` printed, with any whitespace around it, gives `n` again. */
  lemma ParseIntRoundTrip(n: int, before: string, after: string)
    requires AllSpace(before) && AllSpace(after)
    ensures ParseInt(before + IntToString(n) + after) == Some(n)
  {
    var m: nat := if n < 0 then -n else n;
    var digits := NatToString(m);
    var body := IntToString(n);
    assert body == if n < 0 then "-" + digits else digits;
    assert body != [] && !IsSpace(body[0]);
    assert body[|body| - 1] == digits[|digits| - 1];
    var s := before + body + after;
    assert s == before + (body + after);
    TrimLeftPrefix(before, body + after);
    TrimRightSuffix(body, after);
    assert TrimRight(TrimLeft(s)) == body;
    PrintedIsSigned(n);
  }

  lemma PrintedIsSigned(n: int)
    ensures ParseSigned(IntToString(n)) == Some(n)
  {
    var m: nat := if n < 0 then -n else n;
    var digits := NatToString(m);
    DigitsOfNat(m);
    if n < 0 {
      assert IntToString(n)[1..] == digits;
    }
  }

  lemma {:induction false} TrimLeftPrefix(ws: string, t: string)
    requires AllSpace(ws) && t != [] && !IsSpace(t[0])
    ensures TrimLeft(ws + t) == t
  {
    if ws != [] {
      assert (ws + t)[1..] == ws[1..] + t;
      TrimLeftPrefix(ws[1..], t);
    }
  }

  lemma {:induction false} TrimRightSuffix(t: string, ws: string)
    requires AllSpace(ws) && t != [] && !IsSpace(t[|t| - 1])
    ensures TrimRight(t + ws) == t
  {
    if ws != [] {
      assert (t + ws)[..|t + ws| - 1] == t + ws[..|ws| - 1];
      TrimRightSuffix(t, ws[..|ws| - 1]);
    }
  }

  /** `int()` accepts every decimal string that `str()` prints. */
  lemma IntOfPrinted(n: int)
    ensures IntOf(JStr(IntToString(n))) == Some(n)
  {
    var body := IntToString(n);
    assert "" + body + "" == body;
    ParseIntRoundTrip(n, "", "");
  }

  /** A string `int()` accepts holds at least one decimal digit. */
  lemma ParseIntNeedsDigit(s: string)
    requires ParseInt(s).Some?
    ensures exists k | 0 <= k < |s| :: IsDigit(s[k])
  {
    var l := TrimLeft(s);
    var t := TrimRight(l);
    var j := |t| - 1;
    assert IsDigit(t[j]);
    assert t[j] == l[j];
    assert l[j] == s[|s| - |l| + j];
  }
}

=== FILE: routes.dfy ===
/**
 * What each alarm-management route of the clock's web service does to the
 * alarm list, as a pure function of the current list and the request. The
 * class in module Clock runs the same steps on its own state and is proved
 * to agree with these functions.
 */
module Routes {
  import opened Wrappers
  import opened Json
  import opened AlarmRecords

  /** A request body after JSON decoding: no text at all, text that is not JSON, or a decoded value. */
  datatype Body = Empty | Malformed | Decoded(value: Value)

  /** Why a handler gave up. The text of the Python exception is not modelled. */
  datatype Fault =
    | BadJson                 // ujson.loads refused the body
    | NotAnObject             // the body decoded to something other than an object
    | NotAnInteger(v: Value)  // int(v) raised

  /** A parse that either yields a value or names the fault that stopped it. */
  datatype Result<+T> = Ok(value: T) | Err(fault: Fault) {
    predicate IsFailure() {
      Err?
    }

    function PropagateFailure<U>(): Result<U>
      requires Err?
    {
      Err(fault)
    }

    function Extract(): T
      requires Ok?
    {
      value
    }
  }

  /** What a route does to the store: write a new list (and save it), leave it alone, or fail. */
  datatype Effect = Write(alarms: seq<Alarm>) | Keep | Error(fault: Fault)

  /** `int(v)` as a parse step. */
  function IntField(v: Value): Result<int> {
    match IntOf(v)
    case Some(n) => Ok(n)
    case None => Err(NotAnInteger(v))
  }

  /** `data.get(short, data.get(long, 0))`: the short key wins, then the long key, then 0. */
  function Pick(data: map<string, Value>, short: string, long: string): Value {
    if short in data then data[short] else if long in data then data[long] else JInt(0)
  }

  /**
   * The alarm a create request describes. Each field is converted in the
   * order y, m, d, h, min, and the first conversion that fails stops the
   * parse; `enabled` is stored as sent, or true when absent.
   */
  function NewAlarm(data: map<string, Value>): Result<Alarm> {
    var y :- IntField(Pick(data, "y", "year"));
    var m :- IntField(Pick(data, "m", "month"));
    var d :- IntField(Pick(data, "d", "day"));
    var h :- IntField(Pick(data, "h", "hour"));
    var min :- IntField(Pick(data, "min", "minute"));
    Ok(Alarm(y, m, d, h, min, Some(if "enabled" in data then data["enabled"] else JBool(true))))
  }

  /**
   * POST /api/alarms: `{"toggle": i}` flips alarm i; any other object creates
   * an alarm, appends it and re-sorts the list with `sort`, the runtime's sort
   * by time.
   */
  function PostEffect(current: seq<Alarm>, body: Body, sort: seq<Alarm> -> seq<Alarm>): Effect {
    if !body.Decoded? then Error(BadJson)
    else if !body.value.JObj? then Error(NotAnObject)
    else
      var data := body.value.fields;
      if "toggle" in data then
        match IntField(data["toggle"])
        case Err(f) => Error(f)
        case Ok(i) => if 0 <= i < |current| then Write(ToggleAt(current, i)) else Keep
      else
        match NewAlarm(data)
        case Err(f) => Error(f)
        case Ok(a) => Write(sort(current + [a]))
  }

  /** DELETE /api/alarms: `{"all": <truthy>}` clears the list, otherwise `{"i": i}` (default -1) removes one. */
  function DeleteEffect(current: seq<Alarm>, body: Body): Effect {
    match body
    case Malformed => Error(BadJson)
    case Empty => DeleteFrom(current, map[])  // `req.body or "{}"`
    case Decoded(v) => if v.JObj? then DeleteFrom(current, v.fields) else Error(NotAnObject)
  }

  function DeleteFrom(current: seq<Alarm>, data: map<string, Value>): Effect {
    if "all" in data && Truthy(data["all"]) then Write([])
    else
      var iv := if "i" in data then data["i"] else JInt(-1);
      match IntField(iv)
      case Err(f) => Error(f)
      case Ok(i) => if 0 <= i < |current| then Write(RemoveAt(current, i)) else Keep
  }

  /** A query argument as `req.args.get(k)` hands it to `int()`: the string, or None when absent. */
  function Arg(args: map<string, string>, k: string): Value {
    if k in args then JStr(args[k]) else JNull
  }

  /** The alarm the `/add` query describes; it carries no `enabled` key. */
  function QueryAlarm(args: map<string, string>): Result<Alarm> {
    var y :- IntField(Arg(args, "y"));
    var m :- IntField(Arg(args, "m"));
    var d :- IntField(Arg(args, "d"));
    var h :- IntField(Arg(args, "h"));
    var min :- IntField(Arg(args, "min"));
    Ok(Alarm(y, m, d, h, min, None))
  }

  /** GET /add: appends the alarm at the end, without sorting. */
  function AddEffect(current: seq<Alarm>, args: map<string, string>): Effect {
    match QueryAlarm(args)
    case Err(f) => Error(f)
    case Ok(a) => Write(current + [a])
  }

  /** GET /del: removes alarm `i` (default -1, so no argument removes nothing). */
  function DelEffect(current: seq<Alarm>, args: map<string, string>): Effect {
    var iv := if "i" in args then JStr(args["i"]) else JInt(-1);
    match IntField(iv)
    case Err(f) => Error(f)
    case Ok(i) => if 0 <= i < |current| then Write(RemoveAt(current, i)) else Keep
  }

  // ---------------------------------------------------------------- create

  /** Each create field is the short key's value if present, else the long key's, else 0, converted by `int()`. */
  lemma NewAlarmFields(data: map<string, Value>)
    ensures NewAlarm(data).Ok? <==>
      IntOf(Pick(data, "y", "year")).Some? && IntOf(Pick(data, "m", "month")).Some? &&
      IntOf(Pick(data, "d", "day")).Some? && IntOf(Pick(data, "h", "hour")).Some? &&
      IntOf(Pick(data, "min", "minute")).Some?
    ensures NewAlarm(data).Ok? ==>
      var a := NewAlarm(data).value;
      && Some(a.y) == IntOf(Pick(data, "y", "year")) && Some(a.m) == IntOf(Pick(data, "m", "month"))
      && Some(a.d) == IntOf(Pick(data, "d", "day")) && Some(a.h) == IntOf(Pick(data, "h", "hour"))
      && Some(a.min) == IntOf(Pick(data, "min", "minute"))
      && a.enabled == Some(if "enabled" in data then data["enabled"] else JBool(true))
  {
  }

  /** A create body with the short keys. */
  function ShortKeys(a: Alarm): map<string, Value> {
    map["y" := JInt(a.y), "m" := JInt(a.m), "d" := JInt(a.d), "h" := JInt(a.h), "min" := JInt(a.min)]
  }

  /** A create body with the long keys. */
  function LongKeys(a: Alarm): map<string, Value> {
    map["year" := JInt(a.y), "month" := JInt(a.m), "day" := JInt(a.d), "hour" := JInt(a.h), "minute" := JInt(a.min)]
  }

  /** A create body with the short keys and every number sent as a string. */
  function ShortKeysAsText(a: Alarm): map<string, Value> {
    map["y" := JStr(IntToString(a.y)), "m" := JStr(IntToString(a.m)), "d" := JStr(IntToString(a.d)),
        "h" := JStr(IntToString(a.h)), "min" := JStr(IntToString(a.min))]
  }

  /**
   * Creating from either key spelling gives back the alarm that was sent,
   * enabled by default; when both spellings are present the short keys win.
   */
  lemma CreateRoundTrip(a: Alarm, b: Alarm, flag: Value)
    ensures NewAlarm(ShortKeys(a)) == Ok(a.(enabled := Some(JBool(true))))
    ensures NewAlarm(LongKeys(a)) == Ok(a.(enabled := Some(JBool(true))))
    ensures NewAlarm(ShortKeys(a)["enabled" := flag]) == Ok(a.(enabled := Some(flag)))
    ensures NewAlarm(LongKeys(b) + ShortKeys(a)) == Ok(a.(enabled := Some(JBool(true))))
  {
    var both := LongKeys(b) + ShortKeys(a);
    assert Pick(both, "y", "year") == JInt(a.y);
    assert Pick(both, "min", "minute") == JInt(a.min);
  }

  lemma PrintedField(n: int)
    ensures IntField(JStr(IntToString(n))) == Ok(n)
  {
    IntOfPrinted(n);
  }

  /** A create body with the short keys holding the given values, each of which `int()` accepts. */
  lemma CreateFromValues(a: Alarm, vy: Value, vm: Value, vd: Value, vh: Value, vmin: Value)
    requires IntOf(vy) == Some(a.y) && IntOf(vm) == Some(a.m) && IntOf(vd) == Some(a.d)
    requires IntOf(vh) == Some(a.h) && IntOf(vmin) == Some(a.min)
    ensures NewAlarm(map["y" := vy, "m" := vm, "d" := vd, "h" := vh, "min" := vmin])
            == Ok(a.(enabled := Some(JBool(true))))
  {
    ShortPicks(vy, vm, vd, vh, vmin);
    assert IntField(vy) == Ok(a.y) && IntField(vm) == Ok(a.m) && IntField(vd) == Ok(a.d);
    assert IntField(vh) == Ok(a.h) && IntField(vmin) == Ok(a.min);
  }

  lemma ShortPicks(vy: Value, vm: Value, vd: Value, vh: Value, vmin: Value)
    ensures var data := map["y" := vy, "m" := vm, "d" := vd, "h" := vh, "min" := vmin];
      && Pick(data, "y", "year") == vy && Pick(data, "m", "month") == vm
      && Pick(data, "d", "day") == vd && Pick(data, "h", "hour") == vh
      && Pick(data, "min", "minute") == vmin && "enabled" !in data
  {
    var data := map["y" := vy, "m" := vm, "d" := vd, "h" := vh, "min" := vmin];
    assert "enabled" != "y" && "enabled" != "m" && "enabled" != "min";
    assert "enabled" != "d" && "enabled" != "h";
  }

  /** Numbers sent as decimal strings are read back exactly. */
  lemma CreateFromText(a: Alarm)
    ensures NewAlarm(ShortKeysAsText(a)) == Ok(a.(enabled := Some(JBool(true))))
  {
    IntOfPrinted(a.y);
    IntOfPrinted(a.m);
    IntOfPrinted(a.d);
    IntOfPrinted(a.h);
    IntOfPrinted(a.min);
    CreateFromValues(a, JStr(IntToString(a.y)), JStr(IntToString(a.m)), JStr(IntToString(a.d)),
                     JStr(IntToString(a.h)), JStr(IntToString(a.min)));
  }

  /** The `/add` query built from an alarm's printed fields yields that alarm, with no `enabled` key. */
  lemma QueryRoundTrip(a: Alarm)
    ensures QueryAlarm(map["y" := IntToString(a.y), "m" := IntToString(a.m), "d" := IntToString(a.d),
                           "h" := IntToString(a.h), "min" := IntToString(a.min)]) == Ok(a.(enabled := None))
  {
    var args := map["y" := IntToString(a.y), "m" := IntToString(a.m), "d" := IntToString(a.d),
                    "h" := IntToString(a.h), "min" := IntToString(a.min)];
    assert Arg(args, "y") == JStr(IntToString(a.y));
    assert Arg(args, "m") == JStr(IntToString(a.m));
    assert Arg(args, "d") == JStr(IntToString(a.d));
    assert Arg(args, "h") == JStr(IntToString(a.h));
    assert Arg(args, "min") == JStr(IntToString(a.min));
    PrintedField(a.y);
    PrintedField(a.m);
    PrintedField(a.d);
    PrintedField(a.h);
    PrintedField(a.min);
  }

  /**
   * A successful create writes the runtime's sort of the old list with the
   * new alarm appended: a list in time order that holds exactly the old
   * alarms plus the new one.
   */
  lemma PostCreates(current: seq<Alarm>, data: map<string, Value>, a: Alarm, sort: seq<Alarm> -> seq<Alarm>)
    requires SortsByTime(sort)
    requires "toggle" !in data && NewAlarm(data) == Ok(a)
    ensures PostEffect(current, Decoded(JObj(data)), sort) == Write(sort(current + [a]))
    ensures SortedByTime(PostEffect(current, Decoded(JObj(data)), sort).alarms)
    ensures multiset(PostEffect(current, Decoded(JObj(data)), sort).alarms) == multiset(current) + multiset{a}
  {
  }

  /**
   * An index outside [0, len) changes nothing on every route that takes one,
   * and the JSON routes still answer with success.
   */
  lemma {:induction false} OutOfRangeIsNoOp(current: seq<Alarm>, i: int, sort: seq<Alarm> -> seq<Alarm>)
    requires !(0 <= i < |current|)
    ensures PostEffect(current, Decoded(JObj(map["toggle" := JInt(i)])), sort) == Keep
    ensures DeleteEffect(current, Decoded(JObj(map["i" := JInt(i)]))) == Keep
    ensures DelEffect(current, map["i" := IntToString(i)]) == Keep
  {
    assert IntField(JInt(i)) == Ok(i);
    var toggle := map["toggle" := JInt(i)];
    assert "toggle" in toggle && toggle["toggle"] == JInt(i);
    var del := map["i" := JInt(i)];
    assert "all" !in del && del["i"] == JInt(i);
    DelPrinted(current, i);
  }

  /** A valid index toggles exactly that alarm (POST) or removes exactly that alarm (DELETE). */
  lemma InRangeChangesOne(current: seq<Alarm>, i: int, sort: seq<Alarm> -> seq<Alarm>)
    requires 0 <= i < |current|
    ensures PostEffect(current, Decoded(JObj(map["toggle" := JInt(i)])), sort) == Write(ToggleAt(current, i))
    ensures DeleteEffect(current, Decoded(JObj(map["i" := JInt(i)]))) == Write(current[..i] + current[i + 1..])
  {
    assert "all" !in map["i" := JInt(i)];
  }

  /**
   * The `/del` route given a printed index removes exactly that alarm when
   * the index is valid and changes nothing otherwise.
   */
  lemma DelPrinted(current: seq<Alarm>, i: int)
    ensures DelEffect(current, map["i" := IntToString(i)])
            == if 0 <= i < |current| then Write(current[..i] + current[i + 1..]) else Keep
  {
    var query := map["i" := IntToString(i)];
    assert "i" in query && query["i"] == IntToString(i);
    PrintedField(i);
  }

  /** DELETE with a truthy `all` empties the list whatever it held and whatever else the body says. */
  lemma DeleteAllClears(current: seq<Alarm>, data: map<string, Value>)
    requires "all" in data && Truthy(data["all"])
    ensures DeleteEffect(current, Decoded(JObj(data))) == Write([])
  {
  }

  /** `/add` keeps the old list as an exact prefix and puts the new alarm last. */
  lemma AddAppends(current: seq<Alarm>, args: map<string, string>)
    requires QueryAlarm(args).Ok?
    ensures AddEffect(current, args).Write?
    ensures AddEffect(current, args).alarms[..|current|] == current
    ensures AddEffect(current, args).alarms[|current|..] == [QueryAlarm(args).value]
  {
  }

  /** A body that is not a JSON object is refused by both JSON routes. */
  lemma NonObjectRefused(current: seq<Alarm>, body: Body, sort: seq<Alarm> -> seq<Alarm>)
    requires !body.Decoded? || !body.value.JObj?
    requires body != Empty
    ensures PostEffect(current, body, sort).Error? && DeleteEffect(current, body).Error?
  {
  }
}

=== FILE: sound.dfy ===
/**
 * The tune the clock rings: the note table, the melody, the tone each note
 * drives the speaker to, and the endless repetition of the melody that the
 * ring task plays until it is stopped.
 */
module Sound {

  /** A melody step: a note name and how long to hold it, in milliseconds. */
  datatype Note = Note(name: string, ms: nat)

  /** Frequencies in Hz of the named notes; a rest is 0. */
  const NoteFreqs: map<string, int> :=
    map["C4" := 262, "D4" := 294, "E4" := 330, "F4" := 349, "G4" := 392,
        "A4" := 440, "B4" := 494, "C5" := 523, "REST" := 0]

  /** "Twinkle, Twinkle, Little Star", the melody of every ring. */
  const Star: seq<Note> := [
    Note("C4", 400), Note("C4", 400), Note("G4", 400), Note("G4", 400),
    Note("A4", 400), Note("A4", 400), Note("G4", 800), Note("REST", 200),
    Note("F4", 400), Note("F4", 400), Note("E4", 400), Note("E4", 400),
    Note("D4", 400), Note("D4", 400), Note("C4", 800)]

  /**
   * The tables agree: the melody has fifteen notes, every one of them is in
   * the frequency table, and the rest is its only silent note; every other
   * table entry is a positive frequency.
   */
  lemma StarIsPlayable()
    ensures |Star| == 15
    ensures forall k | 0 <= k < |Star| :: Star[k].name in NoteFreqs
    ensures forall k | 0 <= k < |Star| :: NoteFreqs[Star[k].name] == 0 <==> Star[k].name == "REST"
    ensures forall name | name in NoteFreqs :: NoteFreqs[name] > 0 || name == "REST"
  {
  }

  /** `NOTE_FREQS.get(name, 0)`: an unknown name reads as silence. */
  function FreqOf(name: string): int {
    if name in NoteFreqs then NoteFreqs[name] else 0
  }

  /**
   * What the speaker does while a note is held: silent (duty 0), sounding a
   * pitch at duty 512, or driven at some other duty, which no note asks for.
   */
  datatype Tone = Silence | Pitch(hz: int) | OffDuty(duty: int, hz: int)

  function ToneOf(n: Note): (t: Tone)
    ensures !t.OffDuty?
    ensures t == Silence <==> n.name !in NoteFreqs || NoteFreqs[n.name] == 0
    ensures t.Pitch? ==> t.hz == NoteFreqs[n.name] && t.hz > 0
  {
    var f := FreqOf(n.name);
    if f == 0 then Silence else Pitch(f)
  }

  /** The tones of a run of notes, one per note. */
  function Tones(notes: seq<Note>): seq<Tone> {
    seq(|notes|, k requires 0 <= k < |notes| => ToneOf(notes[k]))
  }

  lemma TonesAppend(a: seq<Note>, b: seq<Note>)
    ensures Tones(a + b) == Tones(a) + Tones(b)
  {
  }

  /** The speaker's frequency after a run of notes: the last sounding note's, or `f0` if none sounded. */
  function FreqAfter(f0: int, notes: seq<Note>): int {
    if notes == [] then f0
    else if FreqOf(notes[|notes| - 1].name) == 0 then FreqAfter(f0, notes[..|notes| - 1])
    else FreqOf(notes[|notes| - 1].name)
  }

  lemma {:induction false} FreqAfterAppend(f0: int, a: seq<Note>, b: seq<Note>)
    ensures FreqAfter(f0, a + b) == FreqAfter(FreqAfter(f0, a), b)
  {
    if b != [] {
      assert (a + b)[..|a + b| - 1] == a + b[..|b| - 1];
      FreqAfterAppend(f0, a, b[..|b| - 1]);
    } else {
      assert a + b == a;
    }
  }

  /** The first `n` notes of the melody `m` played over and over. */
  function Cycle(m: seq<Note>, n: nat): (r: seq<Note>)
    requires m != []
    ensures |r| == n
    decreases n
  {
    if n <= |m| then m[..n] else m + Cycle(m, n - |m|)
  }

  /** A repetition longer than the melody is the whole melody followed by the rest of the repetition. */
  lemma CycleUnfold(m: seq<Note>, n: nat)
    requires m != []
    ensures n <= |m| ==> Cycle(m, n) == m[..n]
    ensures n > |m| ==> Cycle(m, n) == m + Cycle(m, n - |m|)
  {
  }

  /** Note `k` of the repetition is note `k mod |m|` of the melody. */
  lemma {:induction false} CycleAt(m: seq<Note>, n: nat, k: nat)
    requires m != [] && k < n
    ensures Cycle(m, n)[k] == m[k % |m|]
    decreases n
  {
    if k < |m| {
      ModUnique(k, |m|, 0, k);
      assert Cycle(m, n)[k] == m[k];
    } else {
      CycleAt(m, n - |m|, k - |m|);
      ModShift(k, |m|);
      assert Cycle(m, n)[k] == Cycle(m, n - |m|)[k - |m|];
    }
  }

  lemma ModShift(k: nat, p: nat)
    requires 0 < p <= k
    ensures (k - p) % p == k % p
  {
    var q, r := (k - p) / p, (k - p) % p;
    assert k == (q + 1) * p + r;
    ModUnique(k, p, q + 1, r);
  }

  /** Euclidean remainders are unique. */
  lemma ModUnique(a: int, p: int, q: int, r: int)
    requires p > 0 && 0 <= r < p && a == q * p + r
    ensures a % p == r
  {
    var q', r' := a / p, a % p;
    assert a == q' * p + r';
    var d := q - q';
    assert d * p == r' - r by {
      assert q * p - q' * p == (q - q') * p;
    }
    if d > 0 {
      MulAtLeast(d, p);
    } else if d < 0 {
      MulAtLeast(-d, p);
    }
  }

  lemma MulAtLeast(d: int, p: int)
    requires d >= 1 && p > 0
    ensures d * p >= p
  {
    assert d * p == (d - 1) * p + p;
    assert (d - 1) * p >= 0;
  }
}

=== FILE: watchdog.dfy ===
/**
 * The alarm watchdog: once a second it compares the current minute with
 * every alarm and rings the enabled ones that match, remembering the
 * positions it has rung so that the many ticks within one minute do not ring
 * the same position twice. The set of rung positions is never cleared while
 * the clock runs, and it records positions, not alarms: an edit that moves
 * alarms to other positions lets an alarm ring again, or keeps one silent.
 */
module Watchdog {
  import opened Json
  import opened AlarmRecords
  import opened Routes

  /** Alarm `i` rings on a tick at minute `now`, given the positions already rung. */
  predicate Fires(alarms: seq<Alarm>, i: nat, now: Moment, last: set<nat>) {
    i < |alarms| && alarms[i].IsEnabled() && alarms[i].When() == now && i !in last
  }

  /** The positions among the first `n` that ring on this tick, in increasing order. */
  function DueUpTo(alarms: seq<Alarm>, now: Moment, last: set<nat>, n: nat): (r: seq<nat>)
    requires n <= |alarms|
    ensures forall i: nat :: i in r <==> i < n && Fires(alarms, i, now, last)
    ensures forall p, q | 0 <= p < q < |r| :: r[p] < r[q]
  {
    if n == 0 then []
    else
      var earlier := DueUpTo(alarms, now, last, n - 1);
      assert forall j | 0 <= j < |earlier| :: earlier[j] < n - 1 by {
        forall j | 0 <= j < |earlier| ensures earlier[j] < n - 1 {
          assert earlier[j] in earlier;
        }
      }
      earlier + (if Fires(alarms, n - 1, now, last) then [n - 1] else [])
  }

  /** The positions that ring on a tick at minute `now`, in the order the tick rings them. */
  function Due(alarms: seq<Alarm>, now: Moment, last: set<nat>): seq<nat> {
    DueUpTo(alarms, now, last, |alarms|)
  }

  function Elements(s: seq<nat>): set<nat> {
    set i | i in s
  }

  predicate Distinct(s: seq<nat>) {
    forall p, q | 0 <= p < q < |s| :: s[p] != s[q]
  }

  /**
   * A second tick in the same minute over the same list rings nothing, once
   * the first tick's positions have been added to the remembered set.
   */
  lemma DueIdempotent(alarms: seq<Alarm>, now: Moment, last: set<nat>)
    ensures Due(alarms, now, last + Elements(Due(alarms, now, last))) == []
  {
    NoneDueAfter(alarms, now, last, Elements(Due(alarms, now, last)), |alarms|);
  }

  lemma {:induction false} NoneDueAfter(alarms: seq<Alarm>, now: Moment, last: set<nat>, rung: set<nat>, n: nat)
    requires n <= |alarms|
    requires forall i: nat | Fires(alarms, i, now, last) :: i in rung
    ensures DueUpTo(alarms, now, last + rung, n) == []
  {
    if n > 0 {
      NoneDueAfter(alarms, now, last, rung, n - 1);
      assert !Fires(alarms, n - 1, now, last + rung) by {
        if Fires(alarms, n - 1, now, last) {
          assert n - 1 in rung;
        }
      }
    }
  }

  /** The positions rung over a run of ticks at the given minutes, the list staying the same. */
  function FireLog(alarms: seq<Alarm>, nows: seq<Moment>, last: set<nat>): seq<nat>
    decreases |nows|
  {
    if nows == [] then []
    else
      var fired := Due(alarms, nows[0], last);
      fired + FireLog(alarms, nows[1..], last + Elements(fired))
  }

  /**
   * Over any run of ticks with the same list, a position rings at most once,
   * and it rings exactly when it was not rung before, its alarm is enabled
   * and one of the ticks falls in the alarm's minute. So while the list is
   * not edited, sixty ticks in the matching minute ring the alarm once, and a
   * position that has rung never rings again while the clock runs.
   */
  lemma {:induction false} FiresOnce(alarms: seq<Alarm>, nows: seq<Moment>, last: set<nat>)
    ensures Distinct(FireLog(alarms, nows, last))
    ensures forall i: nat :: i in FireLog(alarms, nows, last) <==>
      i < |alarms| && alarms[i].IsEnabled() && i !in last && alarms[i].When() in nows
  {
    if nows != [] {
      var fired := Due(alarms, nows[0], last);
      var last' := last + Elements(fired);
      var rest := FireLog(alarms, nows[1..], last');
      FiresOnce(alarms, nows[1..], last');
      var log := fired + rest;
      assert FireLog(alarms, nows, last) == log;
      forall p, q | 0 <= p < q < |log|
        ensures log[p] != log[q]
      {
        if q >= |fired| && p < |fired| {
          assert log[q] in rest;
          assert log[p] in fired;
        } else if p >= |fired| {
          assert log[p] == rest[p - |fired|] && log[q] == rest[q - |fired|];
        }
      }
      assert nows == [nows[0]] + nows[1..];
      forall i: nat
        ensures i in log <==> i < |alarms| && alarms[i].IsEnabled() && i !in last && alarms[i].When() in nows
      {
      }
    }
  }

  /**
   * An alarm that has rung rings again in the same minute when a create
   * sorts an earlier alarm in front of it: the alarm moves to a position
   * that has not rung.
   */
  lemma CreateRingsAgain(a: Alarm, b: Alarm, data: map<string, Value>, sort: seq<Alarm> -> seq<Alarm>)
    requires SortsByTime(sort)
    requires a.IsEnabled() && !NotLater(a.When(), b.When())
    requires "toggle" !in data && NewAlarm(data) == Ok(b)
    ensures Due([a], a.When(), {}) == [0]
    ensures PostEffect([a], Decoded(JObj(data)), sort) == Write([b, a])
    ensures Due([b, a], a.When(), {0}) == [1]
  {
    assert DueUpTo([a], a.When(), {}, 0) == [];
    assert [a] + [b] == [a, b];
    TwoInOrder(sort([a, b]), a, b);
    assert DueUpTo([b, a], a.When(), {0}, 1) == [];
  }

  /**
   * Deleting an alarm that has rung moves the next alarm onto the rung
   * position, and that alarm then never rings, whatever the minute.
   */
  lemma DeleteSilencesNext(a: Alarm, b: Alarm, now: Moment)
    requires a.IsEnabled() && b.IsEnabled()
    ensures Due([a, b], a.When(), {}) == (if b.When() == a.When() then [0, 1] else [0])
    ensures RemoveAt([a, b], 0) == [b]
    ensures Due([b], now, {0}) == []
  {
    assert DueUpTo([a, b], a.When(), {}, 1) == [0];
    assert DueUpTo([b], now, {0}, 0) == [];
  }
}

=== FILE: wrappers.dfy ===
/** The optional value used across the model. */
module Wrappers {

  datatype Option<+T> = None | Some(value: T)
}
